=== FILE: README.md ===
# Prompt workspace history store, in Dafny

A model of the client-side record store of a small prompt-to-JSON web
application. The workspace page sends a prompt to a structuring service
through a server action, normalises the returned text, and saves a record
(`HistoryItem`) into a history list kept in `localStorage` under
`promptHistory`. The history and favorites pages load their list once,
delete records by id, clear the whole list, and hand a record back to the
workspace through the `sessionStorage` slot `loadFromHistory`.

The model is functional. Records are datatypes, lists are `seq`s, and the
two browser stores are maps from key to `Stored<T>`. Each stored value is
either `Encoded(v)`, the serialisation of a value the application wrote, or
`Raw(text)`, text that does not parse as the expected shape. Clock readings
(`id`, `timestamp`) and the answers of the title, structuring and
enhancement services are parameters. `JSON.parse` and the two-space
`JSON.stringify` are a `parse: string -> Option<V>` and a
`stringify: V -> string` parameter.

Modules, leaves first: `Wrappers`, `Records`, `Slices` (`slice(0, n)`),
`Words` (`split(' ')`, `join(' ')`, fallback title), `Normalizer`,
`Storage` (keys, read with the `|| '[]'` default, write, remove),
`HistoryList` (find by prompt, merge, upsert with the 50 cap, remove by id),
`Actions` (server action), `Workspace` (main page), `ListView` (what both
list pages share), `HistoryPage`, `FavoritesPage`, and `Flows` (properties
spanning pages).

Points where the code's behaviour is easy to misread:
- The pages render `enhancement.reasoning` (src/app/page.tsx:353,
  src/app/history/page.tsx:183, src/app/favorites/page.tsx:168), but the
  enhancement output schema (src/ai/flows/suggest-prompt-enhancements.ts:21-23)
  has only `enhancedPrompt`. An enhancement is therefore modelled as that
  one field.
- A supplied title is used only when it is non-empty (`if (!title)`).
- A stored empty string reads as the empty list, because of `|| '[]'`.
- The server action rejects only the empty string. The page rejects a
  prompt whose `trim()` is empty. Both checks are modelled, and
  `Flows.GuardsDiffer` shows they differ.
- Favorites have no cap, and none of the modelled pages adds a favorite.

## Model

| member | source | states |
|---|---|---|
| `Slices.Truncate` | src/app/page.tsx:119 | `slice(0, n)` returns the first `min(len, n)` elements, as a prefix of its input |
| `Words.Split` | src/app/page.tsx:101 | `split(' ')` returns one more piece than there are spaces, and no piece contains a space |
| `Words.Join` | src/app/page.tsx:101 | `join(' ')`: no pieces join to the empty string and the first piece always begins the result; its partner `Words.JoinSplit` proves that joining the pieces of a split gives the text back |
| `Words.JoinSplit` | src/app/page.tsx:101 | joining the pieces of a split with `' '` gives the original text back |
| `Words.PrefixBefore` | src/app/page.tsx:101 | reference definition of the title text: a prefix of the prompt with `min(n-1, spaces)` spaces that ends at the end of the prompt or just before a space; the whole prompt when it has fewer than `n` spaces |
| `Words.JoinTruncateSplit` | src/app/page.tsx:101 | joining the first `n` pieces of a split equals the text in front of the `n`-th space |
| `Words.FallbackTitle` | src/app/page.tsx:101 | the fallback title is the prompt's text in front of its fifth space, followed by `...` |
| `Words.FallbackTitleShortPrompt` | src/app/page.tsx:101 | a prompt of at most five pieces appears whole in its fallback title |
| `Normalizer.Normalize` | src/app/page.tsx:144-151 | total: text that fails to parse passes through unchanged; otherwise the result is the re-serialised parsed value |
| `Normalizer.NormalizeIdempotent` | src/app/page.tsx:146 | when printed text parses and prints back as itself (which `JSON` keeps), normalising twice equals normalising once |
| `Normalizer.NormalizeKeepsParseable` | src/app/page.tsx:146 | under the same law, the normalised text parses exactly when the raw text does, and its parsed value prints as the normalised text |
| `Normalizer.NormalizePreservesValue` | src/app/page.tsx:146 | when printing and parsing give every value back, the normalised text parses to the same value as the raw text |
| `Storage.ReadList` | src/app/page.tsx:92 | a missing key or a stored empty string reads as `Success([])`; an encoded list reads as itself; any other text is a read failure |
| `Storage.WriteList` | src/app/history/page.tsx:68 | after writing, reading the key gives the written list; every other key and the session store are unchanged |
| `Storage.RemoveList` | src/app/history/page.tsx:48 | after removing, the key is absent and reads as `[]`; every other key is unchanged |
| `HistoryList.FindPromptFrom` | src/app/page.tsx:112 | the result is the first index at or after the start whose record has the prompt; none means no record from the start on has it |
| `HistoryList.FindPrompt` | src/app/page.tsx:112 | `findIndex` by prompt: the first matching index, or none exactly when no record has the prompt |
| `HistoryList.Merge` | src/app/page.tsx:105-114 | the merged record takes the new id, title, timestamp, prompt and output; its enhancement is the new one if present, else the previous one |
| `HistoryList.Place` | src/app/page.tsx:112-117 | for a new prompt, the record goes in front of the unchanged list; otherwise only the first matching index changes, to the merge, and the length is unchanged |
| `HistoryList.Upsert` | src/app/page.tsx:112-119 | at most 50 records, forming a prefix of the placed list; for a new prompt, the record sits at index 0 and the old records follow, shifted by one; for an existing prompt, only the first matching index changes; every record either has the new prompt or was already stored |
| `HistoryList.UpsertKeepsDistinct` | src/app/page.tsx:112-119 | pairwise-distinct prompts stay pairwise distinct after an upsert |
| `HistoryList.UpsertThenFind` | src/app/page.tsx:112-119 | within the cap, looking up the upserted prompt afterwards finds the new record: at index 0 for a new prompt, merged at the old index otherwise |
| `HistoryList.UpsertAllFresh` | src/app/page.tsx:116-119 | upserting fresh prompts in order gives the first 50 of the new records, newest first, followed by the old list |
| `HistoryList.UpsertManyKeepsNewest` | src/app/page.tsx:116-119 | after 50 or more fresh prompts, exactly the 50 most recent remain, newest first, and the oldest are dropped |
| `HistoryList.RemoveById` | src/app/history/page.tsx:66 | the `filter` keeps exactly the records whose id differs; the length drops by the number of records with that id (ids need not be unique) |
| `HistoryList.RemoveIsSubsequence` | src/app/history/page.tsx:66 | the records kept by removal stay in their original relative order |
| `HistoryList.RemoveConcat` | src/app/history/page.tsx:66 | removal applies piece by piece: removing from `a + b` equals removing from `a`, then from `b`, then concatenating |
| `HistoryList.RemoveAbsent` | src/app/history/page.tsx:66 | removing an id that no record carries leaves the list unchanged |
| `HistoryList.RemoveIdempotent` | src/app/history/page.tsx:66 | removing the same id twice equals removing it once |
| `HistoryList.RemoveKeepsDistinct` | src/app/history/page.tsx:66 | removal keeps prompts pairwise distinct |
| `Actions.HandleParsePrompt` | src/app/actions.ts:6-17 | the empty string is rejected with `Prompt cannot be empty.` and no request is sent; any other prompt is sent exactly once; a service result is returned unchanged; any service failure becomes `Failed to parse prompt. Please try again.` |
| `Actions.FailureHidesCause` | src/app/actions.ts:13-16 | two services that fail differently give the same outcome, and that outcome is one of the two fixed messages |
| `Workspace.SkipStart` | src/app/page.tsx:128 | the first position from which `trim()` keeps text: every character skipped is whitespace and the one reached is not (or the input has ended) |
| `Workspace.SkipEnd` | src/app/page.tsx:128 | the end of the kept text: every character skipped from the back is whitespace and the last one kept is not (or nothing is left) |
| `Workspace.Trim` | src/app/page.tsx:128 | `trim()`: the result is a contiguous part of the input, with no whitespace at either end, and everything removed is whitespace; it is empty exactly when the input is all whitespace (partner `Workspace.TrimIdempotent`) |
| `Workspace.TrimIdempotent` | src/app/page.tsx:128 | trimming a trimmed text gives it back unchanged |
| `Workspace.ChooseTitle` | src/app/page.tsx:94-103 | a non-empty supplied title is used verbatim; otherwise the generated title; if generation fails, the text in front of the prompt's fifth space followed by `...` |
| `Workspace.NewRecord` | src/app/page.tsx:105-110 | the built record carries the draft's prompt, output and enhancement, the given id and timestamp, and the chosen title |
| `Workspace.SaveToHistory` | src/app/page.tsx:90-124 | an unreadable stored history abandons the save and the store is unchanged; otherwise the stored history becomes the upsert of the new record into it; no other key changes |
| `Workspace.BiasNotice` | src/app/page.tsx:153-158 | a notice appears exactly when bias is detected; it is the non-empty report if there is one, else the default text |
| `Workspace.OnGenerate` | src/app/page.tsx:127-173 | a blank prompt is refused on the page with no request and nothing changed; a service failure clears the output and the enhancement panel, shows the fixed message as banner and toast, and leaves the store untouched; on success the normalised text is shown and saved with no enhancement |
| `Workspace.OnEnhance` | src/app/page.tsx:175-192 | on success the enhancement is shown and saved with the current prompt and output; no toast on success; on failure the panel is empty, the error is toasted and the store is unchanged; the error banner is never touched |
| `Workspace.ConsumeHandOff` | src/app/page.tsx:41-56 | a missing or empty slot changes nothing; an encoded record is loaded into the screen; the slot is removed whenever it held non-empty text, even text that does not parse |
| `ListView.Mount` | src/app/history/page.tsx:16-35 | the page holds exactly the stored list; a corrupt value leaves the initial `[]` and flags the error; a missing key gives `[]` with no error |
| `ListView.Delete` | src/app/history/page.tsx:64-81 | the new list is the id filter `RemoveById` of the old one, so no record with the id remains and the others keep their contents and relative order (`RemoveIsSubsequence`), and an absent id changes nothing; the list written under the key equals the in-memory list; nothing else changes |
| `ListView.Clear` | src/app/history/page.tsx:46-62 | the in-memory list is empty and the key is removed; nothing else changes |
| `ListView.HandOff` | src/app/history/page.tsx:83-85 | the single session slot holds the selected record; `localStorage` is untouched |
| `HistoryPage.MountHistory` | src/app/history/page.tsx:21-35 | loads `promptHistory`; missing gives `[]`, corrupt leaves `[]` and flags the error |
| `HistoryPage.DeleteHistoryItem` | src/app/history/page.tsx:64-81 | the new list is the id filter of the old one: no record with the id remains, the others keep their order and contents, and an absent id changes nothing; the length drops by that id's count; page and stored history agree; favorites are untouched |
| `HistoryPage.ClearHistory` | src/app/history/page.tsx:46-62 | the list is empty and `promptHistory` is removed; favorites are untouched |
| `HistoryPage.LoadHistoryItem` | src/app/history/page.tsx:83-90 | writes the record into the `loadFromHistory` slot |
| `FavoritesPage.MountFavorites` | src/app/favorites/page.tsx:16-34 | loads `promptFavorites`; missing gives `[]`, corrupt leaves `[]` and flags the error |
| `FavoritesPage.RemoveFromFavorites` | src/app/favorites/page.tsx:45-62 | the new list is the id filter of the old one: no favorite with the id remains, the others keep their order and contents, the length drops by that id's count, and an absent id changes nothing; stored favorites equal the page's list; history is untouched |
| `FavoritesPage.ClearFavorites` | src/app/favorites/page.tsx:82-86 | the list is empty and only `promptFavorites` is removed; history is untouched |
| `FavoritesPage.LoadFavoriteItem` | src/app/favorites/page.tsx:64-71 | writes the record into the same `loadFromHistory` slot the history page uses |
| `Flows.SaveKeepsInvariant` | src/app/page.tsx:112-120 | a save keeps the stored history at most 50 long with distinct prompts |
| `Flows.DeleteKeepsInvariant` | src/app/history/page.tsx:66-68 | deleting from a history page that was loaded from the store keeps the invariant |
| `Flows.ClearKeepsInvariant` | src/app/history/page.tsx:48 | clearing the history establishes the invariant |
| `Flows.FavoritesKeepInvariant` | src/app/favorites/page.tsx:47-49 | removing or clearing favorites cannot break the history invariant |
| `Flows.SaveThenFind` | src/app/page.tsx:105-120 | after a save within the cap, the first record with the saved prompt carries the new id, timestamp, output and title, and the new enhancement if one was given |
| `Flows.EnhancementSurvivesRegenerate` | src/app/page.tsx:114 | an enhancement saved by the enhance handler survives a later generation for the same prompt, while the record takes the new id |
| `Flows.FavoriteHandOffRoundTrip` | src/app/favorites/page.tsx:65 | a record handed off by the favorites page is loaded by the workspace once; the slot is then empty, and a second read changes nothing |
| `Flows.HandOffLastWriterWins` | src/app/history/page.tsx:84 | both pages write the one slot, and the later hand-off wins |
| `Flows.FavoriteRemovalKeepsHistoryEntry` | src/app/favorites/page.tsx:47-49 | removing a favorite whose id is also in the history leaves that history record stored |
| `Flows.GuardsDiffer` | src/app/actions.ts:7 | a non-empty, whitespace-only prompt is refused by the page without a request, though the server action alone would send it |
| `Flows.GenerateNewPrompt` | src/app/page.tsx:143-160 | generating for a new prompt puts a record with the normalised output and no enhancement at index 0, with the old records following |

## Left out

- Rendering, toasts' styling, clipboard copying and routing: these are UI. A toast is modelled only as the message it shows.
- The per-character reveal and auto-scroll effects (src/app/page.tsx:58-79): these are frame-driven animation. `setDisplayedJson` is not modelled.
- The model service flows and client (src/ai/flows, src/ai/genkit.ts, src/ai/dev.ts): these are prompt templates for an external model. Their answers are parameters. `handleSuggestEnhancements` and `handleGenerateTitle` are imported by src/app/page.tsx:10 but not exported by src/app/actions.ts. Because next.config.ts:6-8 sets `ignoreBuildErrors: true`, the build plausibly goes through, and the imports are then `undefined` at run time. Each call (src/app/page.tsx:97, 179) would throw a `TypeError`. The catch blocks would turn that into the fallback title every time (src/app/page.tsx:99-101) and an enhance failure every time (src/app/page.tsx:182-188). This was not executed. The oracle parameters cover both outcomes: `generated = None` and a failed `enhanced`. Under this revision, the successful enhance path that `Flows.EnhancementSurvivesRegenerate` describes would not be reachable.
- JSON parsing and printing are library calls. They are the `parse` and `stringify` parameters. A stored text that parses as JSON but is not a list (for example `{}`) is outside the model; the list pages would put that value into their state.
- `Date`-based `id` and `timestamp` are parameters. So are all clock readings.
- Concurrency: `saveToHistory` reads the history before awaiting the title service and writes after. A write that lands in between is lost. This can happen in a single tab: the generate and enhance handlers call `saveToHistory` without awaiting it (src/app/page.tsx:160, 181), so an enhance save can read the history while a generate save is still waiting for its title. Another tab can also interleave. The model treats each save as one atomic step, and `Flows.EnhancementSurvivesRegenerate` holds only under that assumption.
- Write failures of `localStorage.setItem` (quota exceeded) are not modelled. In the source they are caught and logged, and nothing is written.
- Next.js replaces server-action error messages in production builds. The model passes on the message that the action throws.
- `Normalizer.NormalizePreservesValue`: assumes a printer that gives every value back. `JSON.stringify` prints non-finite numbers as `null`, so raw text such as `1e400` (parsed as `Infinity`) changes value when normalised. The lemma does not cover that case. `Normalizer.NormalizeIdempotent` and `Normalizer.NormalizeKeepsParseable` assume only the weaker law that `JSON` keeps.
- `Workspace.ConsumeHandOff`: the `Raw` slot case stands for text that `JSON.parse` rejects or that parses to `null`; the screen then stays as it is. Text that parses to something other than a record (`{}`, `5`, `"x"`) is outside the model. The source then puts undefined fields on the screen (src/app/page.tsx:44-48), and the next render fails on `prompt.trim()` (src/app/page.tsx:227).
- `Storage.ReadList`: the `Raw` case stands for any stored text that does not parse as a record list. Which texts those are is not modelled.

=== FILE: actions.dfy ===
/** The server action `handleParsePrompt` of `src/app/actions.ts`: an
    empty-input guard in front of the structuring service, and one fixed
    message for every service failure. */
module Actions {
  import opened Wrappers

  const EmptyPromptMessage: string := "Prompt cannot be empty."
  const ParseFailureMessage: string := "Failed to parse prompt. Please try again."

  /** What the structuring service returns. */
  datatype ParseOutput = ParseOutput(jsonOutput: string, biasDetected: bool, biasReport: Option<string>)

  /** The outcome of an action together with the requests it sent to the
      service, in order. */
  datatype Dispatch<T> = Dispatch(requests: seq<string>, result: Result<T, string>)

  /** `service` is the structuring service: what it answers for a prompt, or
      the error it throws. */
  function HandleParsePrompt<E>(prompt: string, service: string -> Result<ParseOutput, E>): (r: Dispatch<ParseOutput>)
    ensures prompt == "" ==> r.requests == [] && r.result == Failure(EmptyPromptMessage)
    ensures prompt != "" ==> r.requests == [prompt]
    ensures prompt != "" && service(prompt).Success? ==> r.result == Success(service(prompt).value)
    ensures prompt != "" && service(prompt).Failure? ==> r.result == Failure(ParseFailureMessage)
  {
    if prompt == "" then Dispatch([], Failure(EmptyPromptMessage))
    else match service(prompt)
      case Success(out) => Dispatch([prompt], Success(out))
      case Failure(_) => Dispatch([prompt], Failure(ParseFailureMessage))
  }

  /** The caller only ever sees one of the two fixed messages, never the
      service's own error: two services that fail differently on the same
      prompt give the same outcome. */
  lemma FailureHidesCause<E>(prompt: string, s1: string -> Result<ParseOutput, E>, s2: string -> Result<ParseOutput, E>)
    requires s1(prompt).Failure? && s2(prompt).Failure?
    ensures HandleParsePrompt(prompt, s1) == HandleParsePrompt(prompt, s2)
    ensures HandleParsePrompt(prompt, s1).result.Failure?
    ensures HandleParsePrompt(prompt, s1).result.error in {EmptyPromptMessage, ParseFailureMessage}
  {
  }
}

=== FILE: favorites_page.dfy ===
/** The favorites page, `src/app/favorites/page.tsx`, over the
    `promptFavorites` key. */
module FavoritesPage {
  import opened Wrappers
  import opened Records
  import opened HistoryList
  import opened Storage
  import opened ListView

  /** The load effect: the stored favorites, or `[]` when missing or corrupt. */
  function MountFavorites(store: Store): (p: ListPage)
    ensures p.loadFailed <==> ReadList(store.local, FavoritesKey).Failure?
    ensures !p.loadFailed ==> ReadList(store.local, FavoritesKey) == Success(p.items)
    ensures p.loadFailed ==> p.items == []
  {
    Mount(store, FavoritesKey)
  }

  /** `removeFromFavorites`: no favorite with `id` remains, the stored
      favorites equal the page's list, and the history is untouched. */
  function RemoveFromFavorites(page: ListPage, store: Store, id: string): (r: View)
    ensures r.page.items == RemoveById(page.items, id)
    ensures |r.page.items| == |page.items| - CountId(page.items, id)
    ensures forall k :: 0 <= k < |r.page.items| ==> r.page.items[k].id != id
    ensures forall x :: x in r.page.items <==> x in page.items && x.id != id
    ensures ReadList(r.store.local, FavoritesKey) == Success(r.page.items)
    ensures ReadList(r.store.local, HistoryKey) == ReadList(store.local, HistoryKey)
    ensures r.store.session == store.session
  {
    KeysDistinct();
    var v := Delete(page, store, FavoritesKey, id);
    OtherKeyUnchanged(store.local, v.store.local, FavoritesKey, HistoryKey);
    v
  }

  /** The "Clear All Favorites" handler: only the favorites key is removed. */
  function ClearFavorites(page: ListPage, store: Store): (r: View)
    ensures r.page.items == [] && FavoritesKey !in r.store.local
    ensures ReadList(r.store.local, HistoryKey) == ReadList(store.local, HistoryKey)
    ensures r.store.session == store.session
  {
    KeysDistinct();
    var v := Clear(page, store, FavoritesKey);
    OtherKeyUnchanged(store.local, v.store.local, FavoritesKey, HistoryKey);
    v
  }

  /** `loadFavoriteItem`: the same slot the history page writes. */
  function LoadFavoriteItem(store: Store, item: HistoryItem): (r: Store)
    ensures HandOffKey in r.session && r.session[HandOffKey] == Encoded(item)
    ensures r.local == store.local
  {
    HandOff(store, item)
  }
}

=== FILE: flows.dfy ===
/** Properties that span the pages: the stored history's invariant, the
    hand-off from a list page to the workspace, and the guards in front of
    the structuring service. */
module Flows {
  import opened Wrappers
  import opened Records
  import opened Slices
  import opened HistoryList
  import opened Storage
  import opened Normalizer
  import opened Actions
  import opened Workspace
  import opened ListView
  import opened HistoryPage
  import opened FavoritesPage

  /** The stored history, when readable, holds at most fifty records with
      pairwise distinct prompts. */
  ghost predicate HistoryInvariant(store: Store) {
    ReadList(store.local, HistoryKey).Success? ==>
      var h := ReadList(store.local, HistoryKey).value;
      |h| <= MaxHistory && DistinctPrompts(h)
  }

  lemma SaveKeepsInvariant(store: Store, draft: Draft, id: string, timestamp: string, generated: Option<string>)
    requires HistoryInvariant(store)
    ensures HistoryInvariant(SaveToHistory(store, draft, id, timestamp, generated))
  {
    var before := ReadList(store.local, HistoryKey);
    if before.Success? {
      var after := Upsert(before.value, NewRecord(draft, id, timestamp, generated));
      UpsertKeepsDistinct(before.value, NewRecord(draft, id, timestamp, generated));
      assert ReadList(SaveToHistory(store, draft, id, timestamp, generated).local, HistoryKey) == Success(after);
    }
  }

  /** Deleting from a history page that shows the stored list keeps the
      invariant. */
  lemma DeleteKeepsInvariant(store: Store, id: string)
    requires HistoryInvariant(store)
    ensures HistoryInvariant(DeleteHistoryItem(MountHistory(store), store, id).store)
  {
    var page := MountHistory(store);
    RemoveKeepsDistinct(page.items, id);
  }

  lemma ClearKeepsInvariant(page: ListPage, store: Store)
    ensures HistoryInvariant(ClearHistory(page, store).store)
  {
  }

  /** Favorites operations cannot break the history invariant. */
  lemma FavoritesKeepInvariant(page: ListPage, store: Store, id: string)
    requires HistoryInvariant(store)
    ensures HistoryInvariant(RemoveFromFavorites(page, store, id).store)
    ensures HistoryInvariant(ClearFavorites(page, store).store)
  {
  }

  /** After a save into a readable history within the cap, the first record
      with the saved prompt is the new record, merged with the one it
      replaced if the prompt was already stored. */
  lemma SaveThenFind(store: Store, draft: Draft, id: string, timestamp: string, generated: Option<string>)
    requires ReadList(store.local, HistoryKey).Success?
    requires |ReadList(store.local, HistoryKey).value| <= MaxHistory
    ensures var h := ReadList(SaveToHistory(store, draft, id, timestamp, generated).local, HistoryKey).value;
      var i := FindPrompt(h, draft.prompt);
      && i.Some?
      && h[i.value].id == id && h[i.value].timestamp == timestamp
      && h[i.value].jsonOutput == draft.jsonOutput && h[i.value].title == ChooseTitle(draft, generated)
      && (draft.enhancement.Some? ==> h[i.value].enhancement == draft.enhancement)
  {
  }

  /** An enhancement saved for a prompt survives a later generation for the
      same prompt, which saves no enhancement. */
  lemma EnhancementSurvivesRegenerate<E, V>(
    screen: Screen, store: Store, e: Enhancement, id1: string, ts1: string, t1: Option<string>,
    service: string -> Result<ParseOutput, E>, parse: string -> Option<V>, stringify: V -> string,
    id2: string, ts2: string, t2: Option<string>)
    requires ReadList(store.local, HistoryKey).Success?
    requires |ReadList(store.local, HistoryKey).value| <= MaxHistory
    requires Trim(screen.prompt) != "" && service(screen.prompt).Success?
    ensures var s1 := OnEnhance(screen, store, Success(e), id1, ts1, t1).store;
      var s2 := OnGenerate(screen, s1, service, parse, stringify, id2, ts2, t2).store;
      var h := ReadList(s2.local, HistoryKey).value;
      var i := FindPrompt(h, screen.prompt);
      i.Some? && h[i.value].enhancement == Some(e) && h[i.value].id == id2
  {
    var s1 := OnEnhance(screen, store, Success(e), id1, ts1, t1).store;
    var d1 := Draft(screen.prompt, screen.jsonOutput, Some(e), None);
    var h0 := ReadList(store.local, HistoryKey).value;
    UpsertThenFind(h0, NewRecord(d1, id1, ts1, t1));
    var h1 := ReadList(s1.local, HistoryKey).value;
    var j := FindPrompt(h1, screen.prompt).value;
    assert h1[j].enhancement == Some(e);
    var formatted := Normalize(service(screen.prompt).value.jsonOutput, parse, stringify);
    var d2 := Draft(screen.prompt, formatted, None, None);
    UpsertThenFind(h1, NewRecord(d2, id2, ts2, t2));
  }

  /** A record handed off by the favorites page is loaded by the workspace
      exactly once: the screen shows its prompt, output and enhancement and
      the slot is gone. */
  lemma FavoriteHandOffRoundTrip(screen: Screen, store: Store, item: HistoryItem)
    ensures var r := ConsumeHandOff(screen, LoadFavoriteItem(store, item));
      && r.0 == screen.(prompt := item.prompt, jsonOutput := item.jsonOutput, enhancement := item.enhancement)
      && HandOffKey !in r.1.session
      && ConsumeHandOff(r.0, r.1) == r
  {
  }

  /** The history page and the favorites page write the same slot: the
      later hand-off wins. */
  lemma HandOffLastWriterWins(store: Store, a: HistoryItem, b: HistoryItem)
    ensures LoadFavoriteItem(LoadHistoryItem(store, a), b).session[HandOffKey] == Encoded(b)
    ensures LoadHistoryItem(LoadFavoriteItem(store, a), b).session[HandOffKey] == Encoded(b)
  {
  }

  /** Removing a favorite whose id is also in the history leaves the history
      records carrying that id in place. */
  lemma FavoriteRemovalKeepsHistoryEntry(page: ListPage, store: Store, x: HistoryItem)
    requires ReadList(store.local, HistoryKey).Success? && x in ReadList(store.local, HistoryKey).value
    ensures var after := RemoveFromFavorites(page, store, x.id).store;
      ReadList(after.local, HistoryKey).Success? && x in ReadList(after.local, HistoryKey).value
      && x !in RemoveFromFavorites(page, store, x.id).page.items
  {
  }

  /** The workspace refuses a prompt of white space only without calling the
      service, though the server action on its own would send it. */
  lemma GuardsDiffer<E, V>(screen: Screen, store: Store, service: string -> Result<ParseOutput, E>,
                           parse: string -> Option<V>, stringify: V -> string,
                           id: string, timestamp: string, generated: Option<string>)
    requires screen.prompt != ""
    requires forall k :: 0 <= k < |screen.prompt| ==> IsTrimSpace(screen.prompt[k])
    ensures OnGenerate(screen, store, service, parse, stringify, id, timestamp, generated).requests == []
    ensures HandleParsePrompt(screen.prompt, service).requests == [screen.prompt]
  {
  }

  /** Generating for a prompt not yet in a readable history puts the new
      record, with the normalised output, in front of the old records. */
  lemma GenerateNewPrompt<E, V>(screen: Screen, store: Store, service: string -> Result<ParseOutput, E>,
                                parse: string -> Option<V>, stringify: V -> string,
                                id: string, timestamp: string, generated: Option<string>)
    requires Trim(screen.prompt) != "" && service(screen.prompt).Success?
    requires ReadList(store.local, HistoryKey).Success?
    requires FindPrompt(ReadList(store.local, HistoryKey).value, screen.prompt).None?
    ensures var before := ReadList(store.local, HistoryKey).value;
      var after := ReadList(OnGenerate(screen, store, service, parse, stringify, id, timestamp, generated).store.local, HistoryKey).value;
      && |after| == Min(|before| + 1, MaxHistory)
      && after[0].prompt == screen.prompt && after[0].id == id
      && after[0].jsonOutput == Normalize(service(screen.prompt).value.jsonOutput, parse, stringify)
      && after[0].enhancement.None?
      && forall k :: 0 <= k < |after| - 1 ==> after[k + 1] == before[k]
  {
  }
}

=== FILE: history_list.dfy ===
/** The pure list logic behind the history and favorites stores: the
    prompt-keyed upsert of `saveToHistory` in `src/app/page.tsx` and the
    id filter of the two list pages. */
module HistoryList {
  import opened Wrappers
  import opened Records
  import opened Slices

  /** The cap `slice(0, 50)` puts on the stored history. */
  const MaxHistory: nat := 50

  /** No two records carry the same prompt. */
  ghost predicate DistinctPrompts(items: seq<HistoryItem>) {
    forall i, j :: 0 <= i < j < |items| ==> items[i].prompt != items[j].prompt
  }

  /** `findIndex(h => h.prompt === p)` started at `from`. */
  function FindPromptFrom(items: seq<HistoryItem>, p: string, from: nat): (r: Option<nat>)
    requires from <= |items|
    ensures r.Some? ==> from <= r.value < |items| && items[r.value].prompt == p
    ensures r.Some? ==> forall k :: from <= k < r.value ==> items[k].prompt != p
    ensures r.None? ==> forall k :: from <= k < |items| ==> items[k].prompt != p
    decreases |items| - from
  {
    if from == |items| then None
    else if items[from].prompt == p then Some(from)
    else FindPromptFrom(items, p, from + 1)
  }

  /** The index of the first record whose prompt is `p`, if any. */
  function FindPrompt(items: seq<HistoryItem>, p: string): (r: Option<nat>)
    ensures r.Some? ==> r.value < |items| && items[r.value].prompt == p
    ensures r.Some? ==> forall k :: 0 <= k < r.value ==> items[k].prompt != p
    ensures r.None? <==> forall k :: 0 <= k < |items| ==> items[k].prompt != p
  {
    FindPromptFrom(items, p, 0)
  }

  /** `{ ...previous, ...incoming, enhancement: incoming.enhancement || previous.enhancement }`:
      every field comes from the incoming record except an absent
      enhancement, which keeps the previous one. */
  function Merge(previous: HistoryItem, incoming: HistoryItem): (r: HistoryItem)
    ensures r.id == incoming.id && r.title == incoming.title && r.timestamp == incoming.timestamp
    ensures r.prompt == incoming.prompt && r.jsonOutput == incoming.jsonOutput
    ensures incoming.enhancement.Some? ==> r.enhancement == incoming.enhancement
    ensures incoming.enhancement.None? ==> r.enhancement == previous.enhancement
  {
    incoming.(enhancement := if incoming.enhancement.Some? then incoming.enhancement else previous.enhancement)
  }

  /** The list before the cap: the first record with the same prompt is
      replaced in place by the merge, or the record is put in front. */
  function Place(history: seq<HistoryItem>, item: HistoryItem): (r: seq<HistoryItem>)
    ensures FindPrompt(history, item.prompt).None? ==> r == [item] + history
    ensures FindPrompt(history, item.prompt).Some? ==>
      var i := FindPrompt(history, item.prompt).value;
      |r| == |history| && r[i] == Merge(history[i], item)
      && forall k :: 0 <= k < |r| && k != i ==> r[k] == history[k]
  {
    match FindPrompt(history, item.prompt)
    case Some(i) => history[i := Merge(history[i], item)]
    case None => [item] + history
  }

  /** The upsert of `saveToHistory`: place the record, then keep the first
      fifty. */
  function Upsert(history: seq<HistoryItem>, item: HistoryItem): (r: seq<HistoryItem>)
    ensures |r| <= MaxHistory
    ensures |r| <= |Place(history, item)| && r == Place(history, item)[..|r|]
    ensures FindPrompt(history, item.prompt).None? ==>
      |r| == Min(|history| + 1, MaxHistory) && r[0] == item
      && forall k :: 0 <= k < |r| - 1 ==> r[k + 1] == history[k]
    ensures FindPrompt(history, item.prompt).Some? ==>
      var i := FindPrompt(history, item.prompt).value;
      |r| == Min(|history|, MaxHistory)
      && (i < |r| ==> r[i] == Merge(history[i], item))
      && forall k :: 0 <= k < |r| && k != i ==> r[k] == history[k]
    ensures forall k :: 0 <= k < |r| ==> r[k].prompt == item.prompt || r[k] in history
  {
    var placed := Place(history, item);
    assert forall k :: 0 <= k < |placed| ==> placed[k].prompt == item.prompt || placed[k] in history;
    Truncate(placed, MaxHistory)
  }

  /** An upsert keeps the prompts of the list pairwise distinct. */
  lemma UpsertKeepsDistinct(history: seq<HistoryItem>, item: HistoryItem)
    requires DistinctPrompts(history)
    ensures DistinctPrompts(Upsert(history, item))
  {
  }

  /** After an upsert into a list within the cap, the first record with the
      upserted prompt is the incoming record merged with what was there:
      in front for a new prompt, at the old index otherwise. */
  lemma UpsertThenFind(history: seq<HistoryItem>, item: HistoryItem)
    requires |history| <= MaxHistory
    ensures var r := Upsert(history, item);
      match FindPrompt(history, item.prompt)
      case None => FindPrompt(r, item.prompt) == Some(0) && r[0] == item
      case Some(i) => FindPrompt(r, item.prompt) == Some(i) && r[i] == Merge(history[i], item)
  {
  }

  /** Upserting records one after the other, oldest first. */
  function UpsertAll(history: seq<HistoryItem>, items: seq<HistoryItem>): (r: seq<HistoryItem>)
    ensures |items| > 0 ==> |r| <= MaxHistory
    decreases |items|
  {
    if |items| == 0 then history else UpsertAll(Upsert(history, items[0]), items[1..])
  }

  /** The prompts of `items` are pairwise distinct and none is in `history`. */
  ghost predicate FreshPrompts(history: seq<HistoryItem>, items: seq<HistoryItem>) {
    && DistinctPrompts(items)
    && forall a, k :: 0 <= a < |items| && 0 <= k < |history| ==> items[a].prompt != history[k].prompt
  }

  /** After the first fresh record is upserted, the remaining ones are still
      fresh with respect to the new list. */
  lemma FreshAfterFirst(history: seq<HistoryItem>, items: seq<HistoryItem>)
    requires FreshPrompts(history, items) && |items| > 0
    ensures Upsert(history, items[0]) == Truncate([items[0]] + history, MaxHistory)
    ensures FreshPrompts(Upsert(history, items[0]), items[1..])
  {
  }

  /** Records with prompts never seen before pile up newest first in front
      of the old list, and the fifty most recent are kept. */
  lemma {:induction false} UpsertAllFresh(history: seq<HistoryItem>, items: seq<HistoryItem>)
    requires |history| <= MaxHistory
    requires FreshPrompts(history, items)
    ensures UpsertAll(history, items) == Truncate(Reverse(items) + history, MaxHistory)
    decreases |items|
  {
    if |items| == 0 {
      assert Reverse(items) + history == history;
    } else {
      var x := items[0];
      var rest := items[1..];
      FreshAfterFirst(history, items);
      var h1 := Upsert(history, x);
      UpsertAllFresh(h1, rest);
      ReverseCons(items);
      TruncateAppend(Reverse(rest), [x] + history, MaxHistory);
      calc {
        UpsertAll(history, items);
        UpsertAll(h1, rest);
        Truncate(Reverse(rest) + h1, MaxHistory);
        Truncate(Reverse(rest) + Truncate([x] + history, MaxHistory), MaxHistory);
        Truncate(Reverse(rest) + ([x] + history), MaxHistory);
        { AppendAssoc(Reverse(rest), [x], history); }
        Truncate((Reverse(rest) + [x]) + history, MaxHistory);
        Truncate(Reverse(items) + history, MaxHistory);
      }
    }
  }

  /** Upserting at least fifty fresh prompts leaves exactly the fifty most
      recent, newest first. */
  lemma UpsertManyKeepsNewest(history: seq<HistoryItem>, items: seq<HistoryItem>)
    requires |history| <= MaxHistory
    requires FreshPrompts(history, items)
    requires |items| >= MaxHistory
    ensures var r := UpsertAll(history, items);
      |r| == MaxHistory && forall k :: 0 <= k < MaxHistory ==> r[k] == items[|items| - 1 - k]
  {
    UpsertAllFresh(history, items);
    var r := UpsertAll(history, items);
    forall k | 0 <= k < MaxHistory
      ensures r[k] == items[|items| - 1 - k]
    {
      assert r[k] == (Reverse(items) + history)[k];
      ReverseIndex(items, k);
    }
  }

  /** Number of records carrying `id`. */
  function CountId(items: seq<HistoryItem>, id: string): nat {
    if |items| == 0 then 0 else (if items[0].id == id then 1 else 0) + CountId(items[1..], id)
  }

  /** `items.filter(item => item.id !== id)`. */
  function RemoveById(items: seq<HistoryItem>, id: string): (r: seq<HistoryItem>)
    ensures forall x :: x in r <==> x in items && x.id != id
    ensures |r| == |items| - CountId(items, id)
    decreases |items|
  {
    if |items| == 0 then []
    else if items[0].id == id then RemoveById(items[1..], id)
    else [items[0]] + RemoveById(items[1..], id)
  }

  /** `a` is `b` with some elements left out, the rest in their order. */
  ghost predicate SubsequenceOf(a: seq<HistoryItem>, b: seq<HistoryItem>)
    decreases |b|
  {
    if |a| == 0 then true
    else if |b| == 0 then false
    else (a[0] == b[0] && SubsequenceOf(a[1..], b[1..])) || SubsequenceOf(a, b[1..])
  }

  /** Removal keeps the other records in their original relative order. */
  lemma {:induction false} RemoveIsSubsequence(items: seq<HistoryItem>, id: string)
    ensures SubsequenceOf(RemoveById(items, id), items)
    decreases |items|
  {
    if |items| > 0 {
      RemoveIsSubsequence(items[1..], id);
      var r := RemoveById(items, id);
      if items[0].id != id {
        assert r[0] == items[0] && r[1..] == RemoveById(items[1..], id);
      }
    }
  }

  /** Removal is applied piecewise: it commutes with concatenation. */
  lemma {:induction false} RemoveConcat(a: seq<HistoryItem>, b: seq<HistoryItem>, id: string)
    ensures RemoveById(a + b, id) == RemoveById(a, id) + RemoveById(b, id)
    decreases |a|
  {
    if |a| > 0 {
      var ab := a + b;
      assert ab[0] == a[0];
      assert ab[1..] == a[1..] + b;
      RemoveConcat(a[1..], b, id);
      var ra := RemoveById(a[1..], id);
      var rb := RemoveById(b, id);
      assert RemoveById(a[1..] + b, id) == ra + rb;
      if a[0].id == id {
        assert RemoveById(ab, id) == ra + rb;
        assert RemoveById(a, id) == ra;
      } else {
        assert RemoveById(ab, id) == [a[0]] + (ra + rb);
        assert RemoveById(a, id) == [a[0]] + ra;
        AppendAssoc([a[0]], ra, rb);
      }
    } else {
      assert a + b == b;
    }
  }

  /** Removing an id nobody carries changes nothing. */
  lemma {:induction false} RemoveAbsent(items: seq<HistoryItem>, id: string)
    requires forall k :: 0 <= k < |items| ==> items[k].id != id
    ensures RemoveById(items, id) == items
    decreases |items|
  {
    if |items| > 0 {
      AbsentFromTail(items, id);
      RemoveAbsent(items[1..], id);
      KeepHead(items, id);
    }
  }

  /** An id absent from a list is absent from its tail and its head. */
  lemma AbsentFromTail(items: seq<HistoryItem>, id: string)
    requires |items| > 0
    requires forall k :: 0 <= k < |items| ==> items[k].id != id
    ensures items[0].id != id
    ensures forall k :: 0 <= k < |items[1..]| ==> items[1..][k].id != id
  {
    forall k | 0 <= k < |items[1..]|
      ensures items[1..][k].id != id
    {
      assert items[1..][k] == items[k + 1];
    }
  }

  /** A head that does not carry the id survives removal in front of an
      unchanged tail. */
  lemma KeepHead(items: seq<HistoryItem>, id: string)
    requires |items| > 0 && items[0].id != id
    requires RemoveById(items[1..], id) == items[1..]
    ensures RemoveById(items, id) == items
  {
    assert RemoveById(items, id) == [items[0]] + items[1..];
    assert items == [items[0]] + items[1..];
  }

  /** Removing twice is removing once. */
  lemma RemoveIdempotent(items: seq<HistoryItem>, id: string)
    ensures RemoveById(RemoveById(items, id), id) == RemoveById(items, id)
  {
  }

  /** Removal keeps prompts pairwise distinct. */
  lemma {:induction false} RemoveKeepsDistinct(items: seq<HistoryItem>, id: string)
    requires DistinctPrompts(items)
    ensures DistinctPrompts(RemoveById(items, id))
    decreases |items|
  {
    if |items| > 0 {
      var tail := items[1..];
      assert DistinctPrompts(tail) by {
        forall i, j | 0 <= i < j < |tail|
          ensures tail[i].prompt != tail[j].prompt
        {
          assert tail[i] == items[i + 1] && tail[j] == items[j + 1];
        }
      }
      RemoveKeepsDistinct(tail, id);
      var rt := RemoveById(tail, id);
      if items[0].id != id {
        var r := [items[0]] + rt;
        HeadPromptFresh(items, rt);
        forall i, j | 0 <= i < j < |r|
          ensures r[i].prompt != r[j].prompt
        {
          if i == 0 {
            assert r[j] == rt[j - 1];
          } else {
            assert r[i] == rt[i - 1] && r[j] == rt[j - 1];
          }
        }
      }
    }
  }

  /** No record drawn from the tail of a list with distinct prompts shares
      the head's prompt. */
  lemma HeadPromptFresh(items: seq<HistoryItem>, rest: seq<HistoryItem>)
    requires |items| > 0 && DistinctPrompts(items)
    requires forall x :: x in rest ==> x in items[1..]
    ensures forall j :: 0 <= j < |rest| ==> rest[j].prompt != items[0].prompt
  {
    forall j | 0 <= j < |rest|
      ensures rest[j].prompt != items[0].prompt
    {
      assert rest[j] in items[1..];
      var k :| 0 <= k < |items[1..]| && items[1..][k] == rest[j];
      assert items[1..][k] == items[k + 1];
    }
  }
}

=== FILE: history_page.dfy ===
/** The history page, `src/app/history/page.tsx`, over the
    `promptHistory` key. */
module HistoryPage {
  import opened Wrappers
  import opened Records
  import opened HistoryList
  import opened Storage
  import opened ListView

  /** The load effect: the stored history, or `[]` when missing or corrupt. */
  function MountHistory(store: Store): (p: ListPage)
    ensures p.loadFailed <==> ReadList(store.local, HistoryKey).Failure?
    ensures !p.loadFailed ==> ReadList(store.local, HistoryKey) == Success(p.items)
    ensures p.loadFailed ==> p.items == []
  {
    Mount(store, HistoryKey)
  }

  /** `deleteHistoryItem`: no record with `id` remains, the favorites are
      untouched, and the page shows what is stored. */
  function DeleteHistoryItem(page: ListPage, store: Store, id: string): (r: View)
    ensures r.page.items == RemoveById(page.items, id)
    ensures forall k :: 0 <= k < |r.page.items| ==> r.page.items[k].id != id
    ensures |r.page.items| == |page.items| - CountId(page.items, id)
    ensures ReadList(r.store.local, HistoryKey) == Success(r.page.items)
    ensures ReadList(r.store.local, FavoritesKey) == ReadList(store.local, FavoritesKey)
    ensures r.store.session == store.session
  {
    KeysDistinct();
    var v := Delete(page, store, HistoryKey, id);
    OtherKeyUnchanged(store.local, v.store.local, HistoryKey, FavoritesKey);
    v
  }

  /** `clearHistory`: the history key is gone and the page is empty; the
      favorites are untouched. */
  function ClearHistory(page: ListPage, store: Store): (r: View)
    ensures r.page.items == [] && HistoryKey !in r.store.local
    ensures ReadList(r.store.local, FavoritesKey) == ReadList(store.local, FavoritesKey)
    ensures r.store.session == store.session
  {
    KeysDistinct();
    var v := Clear(page, store, HistoryKey);
    OtherKeyUnchanged(store.local, v.store.local, HistoryKey, FavoritesKey);
    v
  }

  /** `loadHistoryItem`: hand the record to the workspace. */
  function LoadHistoryItem(store: Store, item: HistoryItem): (r: Store)
    ensures HandOffKey in r.session && r.session[HandOffKey] == Encoded(item)
    ensures r.local == store.local
  {
    HandOff(store, item)
  }
}

=== FILE: list_view.dfy ===
/** What the history page and the favorites page share: a list loaded once
    from a `localStorage` key when the page mounts, deletion by id that
    writes the filtered list back, clearing that removes the key, and the
    hand-off of one record to the workspace through the session slot. */
module ListView {
  import opened Wrappers
  import opened Records
  import opened HistoryList
  import opened Storage

  /** The page's in-memory list, and whether its load failed (the error
      toast). The list starts as `[]` and keeps that value when the stored
      text cannot be parsed. */
  datatype ListPage = ListPage(items: seq<HistoryItem>, loadFailed: bool)

  /** The load effect of the page: the page holds exactly what `key`
      stores, or the initial empty list when that cannot be read. */
  function Mount(store: Store, key: string): (p: ListPage)
    ensures p.loadFailed <==> ReadList(store.local, key).Failure?
    ensures !p.loadFailed ==> ReadList(store.local, key) == Success(p.items)
    ensures p.loadFailed ==> p.items == []
    ensures key !in store.local ==> p == ListPage([], false)
  {
    match ReadList(store.local, key)
    case Success(items) => ListPage(items, false)
    case Failure(_) => ListPage([], true)
  }

  /** A page together with the store it writes to. */
  datatype View = View(page: ListPage, store: Store)

  /** Deletion by id: the in-memory list is filtered and the result is
      written under `key`, so page and store agree afterwards. Nothing but
      `key` changes. */
  function Delete(page: ListPage, store: Store, key: string, id: string): (r: View)
    ensures r.page.items == RemoveById(page.items, id)
    ensures forall k :: 0 <= k < |r.page.items| ==> r.page.items[k].id != id
    ensures forall x :: x in r.page.items <==> x in page.items && x.id != id
    ensures |r.page.items| == |page.items| - CountId(page.items, id)
    ensures ReadList(r.store.local, key) == Success(r.page.items)
    ensures r.page.loadFailed == page.loadFailed
    ensures r.store.local - {key} == store.local - {key}
    ensures r.store.session == store.session
  {
    var kept := RemoveById(page.items, id);
    View(page.(items := kept), WriteList(store, key, kept))
  }

  /** Clearing: the key is removed and the in-memory list is empty. Nothing
      but `key` changes. */
  function Clear(page: ListPage, store: Store, key: string): (r: View)
    ensures r.page.items == []
    ensures key !in r.store.local
    ensures ReadList(r.store.local, key) == Success([])
    ensures r.store.local - {key} == store.local - {key}
    ensures r.store.session == store.session
  {
    View(page.(items := []), RemoveList(store, key))
  }

  /** `sessionStorage.setItem('loadFromHistory', JSON.stringify(item))`:
      the one hand-off slot now holds `item`; `localStorage` is untouched. */
  function HandOff(store: Store, item: HistoryItem): (r: Store)
    ensures HandOffKey in r.session && r.session[HandOffKey] == Encoded(item)
    ensures r.session - {HandOffKey} == store.session - {HandOffKey}
    ensures r.local == store.local
  {
    store.(session := store.session[HandOffKey := Encoded(item)])
  }
}

=== FILE: normalizer.dfy ===
/** The output normaliser of the generate handler in `src/app/page.tsx`:
    `JSON.stringify(JSON.parse(raw), null, 2)`, falling back to the raw text
    when it does not parse. The JSON library is not modelled: `parse` stands
    for `JSON.parse` (`None` when it throws) and `stringify` for the
    two-space pretty printer. */
module Normalizer {
  import opened Wrappers

  /** Total: every input yields a displayable string. */
  function Normalize<V>(raw: string, parse: string -> Option<V>, stringify: V -> string): (r: string)
    ensures parse(raw).None? ==> r == raw
    ensures parse(raw).Some? ==> r == stringify(parse(raw).value)
  {
    match parse(raw)
    case None => raw
    case Some(v) => stringify(v)
  }

  /** The law the JSON library does keep: printed text parses, and printing
      the value read back gives the same text. (`JSON.parse("1e400")` is
      `Infinity`, which prints as `null`, so the value itself need not come
      back.) */
  ghost predicate PrintStable<V(!new)>(parse: string -> Option<V>, stringify: V -> string) {
    forall v :: parse(stringify(v)).Some? && stringify(parse(stringify(v)).value) == stringify(v)
  }

  /** The stronger round trip: printing a value and parsing the text gives
      the value back. */
  ghost predicate PrintParses<V(!new)>(parse: string -> Option<V>, stringify: V -> string) {
    forall v :: parse(stringify(v)) == Some(v)
  }

  /** Normalising twice is normalising once, provided printing is stable
      after one round trip. */
  lemma NormalizeIdempotent<V(!new)>(raw: string, parse: string -> Option<V>, stringify: V -> string)
    requires PrintStable(parse, stringify)
    ensures Normalize(Normalize(raw, parse, stringify), parse, stringify) == Normalize(raw, parse, stringify)
  {
  }

  /** The normalised text parses exactly when the input does, and once
      parsed it prints as itself. */
  lemma NormalizeKeepsParseable<V(!new)>(raw: string, parse: string -> Option<V>, stringify: V -> string)
    requires PrintStable(parse, stringify)
    ensures parse(Normalize(raw, parse, stringify)).Some? <==> parse(raw).Some?
    ensures parse(raw).Some? ==>
      stringify(parse(Normalize(raw, parse, stringify)).value) == Normalize(raw, parse, stringify)
  {
  }

  /** The normalised text parses to the same value as the input whenever the
      input parses, and is the input itself otherwise. */
  lemma NormalizePreservesValue<V(!new)>(raw: string, parse: string -> Option<V>, stringify: V -> string)
    requires PrintParses(parse, stringify)
    ensures parse(Normalize(raw, parse, stringify)) == parse(raw)
  {
  }
}

=== FILE: records.dfy ===
/** The record shape shared by the history list, the favorites list and the
    hand-off slot (`HistoryItem` in the application). */
module Records {
  import opened Wrappers

  /** The output of the enhancement service: one rewritten prompt. */
  datatype Enhancement = Enhancement(enhancedPrompt: string)

  /** One stored interaction. `id` and `timestamp` are clock readings taken
      when the record is built; they are plain strings here. */
  datatype HistoryItem = HistoryItem(
    id: string,
    title: string,
    prompt: string,
    jsonOutput: string,
    enhancement: Option<Enhancement>,
    timestamp: string)
}

=== FILE: slices.dfy ===
/** Sequence helpers: the `slice(0, n)` of JavaScript arrays and a reversal. */
module Slices {

  function Min(a: int, b: int): int {
    if a <= b then a else b
  }

  /** `s.slice(0, n)`: the first `n` elements, or all of `s` when it is shorter. */
  function Truncate<T>(s: seq<T>, n: nat): (r: seq<T>)
    ensures |r| == Min(|s|, n)
    ensures r == s[..|r|]
  {
    if |s| <= n then s else s[..n]
  }

  function Reverse<T>(s: seq<T>): (r: seq<T>)
    ensures |r| == |s|
  {
    if |s| == 0 then [] else Reverse(s[1..]) + [s[0]]
  }

  /** Reversal reads the sequence from the back. */
  lemma {:induction false} ReverseIndex<T>(s: seq<T>, k: nat)
    requires k < |s|
    ensures Reverse(s)[k] == s[|s| - 1 - k]
    decreases |s|
  {
    if k < |s| - 1 {
      ReverseIndex(s[1..], k);
    }
  }

  lemma ReverseCons<T>(s: seq<T>)
    requires |s| > 0
    ensures Reverse(s) == Reverse(s[1..]) + [s[0]]
  {
  }

  lemma AppendAssoc<T>(a: seq<T>, b: seq<T>, c: seq<T>)
    ensures a + (b + c) == (a + b) + c
  {
  }

  /** Truncating twice to the same length is truncating once, and a prefix
      placed in front of an already truncated tail changes nothing. */
  lemma TruncateAppend<T>(a: seq<T>, b: seq<T>, n: nat)
    ensures Truncate(a + Truncate(b, n), n) == Truncate(a + b, n)
  {
  }
}

=== FILE: storage.dfy ===
/** The browser's two key-value stores as explicit state. `localStorage`
    holds the history and favorites lists, `sessionStorage` holds the one
    record handed from a list page to the workspace. */
module Storage {
  import opened Wrappers
  import opened Records

  const HistoryKey: string := "promptHistory"
  const FavoritesKey: string := "promptFavorites"
  const HandOffKey: string := "loadFromHistory"

  /** A stored string, seen through `JSON.parse`: either the serialisation of
      a value of the expected shape, or text that does not parse as one. */
  datatype Stored<T> = Encoded(value: T) | Raw(text: string)

  datatype Store = Store(
    local: map<string, Stored<seq<HistoryItem>>>,
    session: map<string, Stored<HistoryItem>>)

  /** `JSON.parse(localStorage.getItem(key) || '[]')`. A missing key and the
      empty string both read as the empty list, because `||` replaces them
      with `'[]'`; any other unparseable text fails with that text. */
  function ReadList(local: map<string, Stored<seq<HistoryItem>>>, key: string): (r: Result<seq<HistoryItem>, string>)
    ensures key !in local ==> r == Success([])
    ensures key in local && local[key] == Raw("") ==> r == Success([])
    ensures r.Failure? <==> key in local && local[key].Raw? && local[key].text != ""
    ensures key in local && local[key].Encoded? ==> r == Success(local[key].value)
  {
    if key !in local then Success([])
    else match local[key]
      case Encoded(items) => Success(items)
      case Raw(text) => if text == "" then Success([]) else Failure(text)
  }

  /** `localStorage.setItem(key, JSON.stringify(items))`. */
  function WriteList(store: Store, key: string, items: seq<HistoryItem>): (r: Store)
    ensures ReadList(r.local, key) == Success(items)
    ensures r.local - {key} == store.local - {key}
    ensures r.session == store.session
  {
    store.(local := store.local[key := Encoded(items)])
  }

  /** `localStorage.removeItem(key)`. */
  function RemoveList(store: Store, key: string): (r: Store)
    ensures key !in r.local
    ensures ReadList(r.local, key) == Success([])
    ensures r.local - {key} == store.local - {key}
    ensures r.session == store.session
  {
    store.(local := store.local - {key})
  }

  /** The two list keys and the hand-off key are distinct strings. */
  lemma KeysDistinct()
    ensures HistoryKey != FavoritesKey
    ensures HistoryKey != HandOffKey && FavoritesKey != HandOffKey
  {
  }

  /** Changing one list key leaves every other key's contents as they were. */
  lemma OtherKeyUnchanged(before: map<string, Stored<seq<HistoryItem>>>, after: map<string, Stored<seq<HistoryItem>>>, changed: string, other: string)
    requires after - {changed} == before - {changed}
    requires other != changed
    ensures ReadList(after, other) == ReadList(before, other)
  {
    assert other in after <==> other in after - {changed};
    assert other in before <==> other in before - {changed};
    if other in after {
      assert after[other] == (after - {changed})[other];
      assert before[other] == (before - {changed})[other];
    }
  }
}

=== FILE: words.dfy ===
/** Splitting a prompt on single spaces, joining pieces back, and the
    fallback title built from the first five pieces (`src/app/page.tsx`,
    `item.prompt.split(' ').slice(0, 5).join(' ') + '...'`). */
module Words {
  import opened Slices

  /** Number of space characters in `s`. */
  function Spaces(s: string): nat {
    if |s| == 0 then 0 else (if s[0] == ' ' then 1 else 0) + Spaces(s[1..])
  }

  /** `s.split(' ')`: the pieces between single spaces. Consecutive spaces
      give empty pieces and the empty string splits into one empty piece. */
  function Split(s: string): (r: seq<string>)
    ensures |r| == Spaces(s) + 1
    ensures forall k :: 0 <= k < |r| ==> ' ' !in r[k]
  {
    if |s| == 0 then [""]
    else if s[0] == ' ' then [""] + Split(s[1..])
    else
      var rest := Split(s[1..]);
      [[s[0]] + rest[0]] + rest[1..]
  }

  /** `parts.join(' ')`: the pieces in order, a space between neighbours. */
  function Join(parts: seq<string>): (r: string)
    ensures |parts| == 0 ==> r == ""
    ensures |parts| >= 1 ==> parts[0] <= r
  {
    if |parts| == 0 then ""
    else if |parts| == 1 then parts[0]
    else parts[0] + " " + Join(parts[1..])
  }

  /** A character put in front of the first piece ends up in front of the join. */
  lemma {:induction false} JoinCons(c: char, parts: seq<string>)
    requires |parts| >= 1
    ensures Join([[c] + parts[0]] + parts[1..]) == [c] + Join(parts)
  {
  }

  /** Splitting loses nothing: joining the pieces gives the text back. */
  lemma {:induction false} JoinSplit(s: string)
    ensures Join(Split(s)) == s
  {
    if |s| == 0 {
    } else if s[0] == ' ' {
      JoinSplit(s[1..]);
      assert Split(s)[1..] == Split(s[1..]);
    } else {
      var rest := Split(s[1..]);
      JoinSplit(s[1..]);
      JoinCons(s[0], rest);
      assert s == [s[0]] + s[1..];
    }
  }

  /** The part of `s` in front of its `n`-th space, or all of `s` when it has
      fewer than `n` spaces. Independent of `Split`, this is what the first
      `n` pieces of a split cover. */
  function PrefixBefore(s: string, n: nat): (r: string)
    requires n >= 1
    ensures r <= s
    ensures Spaces(r) == Min(n - 1, Spaces(s))
    ensures |r| == |s| || s[|r|] == ' '
    ensures Spaces(s) < n ==> r == s
    decreases |s|
  {
    if |s| == 0 then ""
    else if s[0] == ' ' then
      (if n == 1 then "" else " " + PrefixBefore(s[1..], n - 1))
    else [s[0]] + PrefixBefore(s[1..], n)
  }

  /** An empty first piece contributes just the separator. */
  lemma JoinEmptyHead(t: seq<string>)
    requires |t| >= 1
    ensures Join([""] + t) == " " + Join(t)
  {
    assert ([""] + t)[0] == "" && ([""] + t)[1..] == t;
  }

  lemma TruncateCons<T>(s: seq<T>, n: nat)
    requires |s| >= 1 && n >= 1
    ensures Truncate(s, n) == [s[0]] + Truncate(s[1..], n - 1)
  {
  }

  /** Joining the first `n` pieces of a split gives the text in front of the
      `n`-th space. */
  lemma {:induction false} JoinTruncateSplit(s: string, n: nat)
    requires n >= 1
    ensures Join(Truncate(Split(s), n)) == PrefixBefore(s, n)
    decreases |s|
  {
    if |s| == 0 {
    } else if s[0] == ' ' {
      SpaceStep(s, n);
    } else {
      CharStep(s, n);
    }
  }

  lemma {:induction false} SpaceStep(s: string, n: nat)
    requires n >= 1 && |s| >= 1 && s[0] == ' '
    ensures Join(Truncate(Split(s), n)) == PrefixBefore(s, n)
    decreases |s|, 1
  {
    var rest := Split(s[1..]);
    var whole := Split(s);
    assert whole == [""] + rest;
    TruncateCons(whole, n);
    assert whole[0] == "" && whole[1..] == rest;
    var t := Truncate(rest, n - 1);
    assert Truncate(whole, n) == [""] + t;
    if n == 1 {
      assert |t| == 0;
      assert Truncate(whole, n) == [""];
      assert PrefixBefore(s, n) == "";
    } else {
      SpaceStepLater(s, n, t);
    }
  }

  lemma {:induction false} SpaceStepLater(s: string, n: nat, t: seq<string>)
    requires n >= 2 && |s| >= 1 && s[0] == ' '
    requires t == Truncate(Split(s[1..]), n - 1)
    requires Truncate(Split(s), n) == [""] + t
    ensures Join(Truncate(Split(s), n)) == PrefixBefore(s, n)
    decreases |s|, 0
  {
    JoinTruncateSplit(s[1..], n - 1);
    assert Join(t) == PrefixBefore(s[1..], n - 1);
    JoinEmptyHead(t);
    assert Join([""] + t) == " " + Join(t);
    assert PrefixBefore(s, n) == " " + PrefixBefore(s[1..], n - 1);
  }

  lemma {:induction false} CharStep(s: string, n: nat)
    requires n >= 1 && |s| >= 1 && s[0] != ' '
    ensures Join(Truncate(Split(s), n)) == PrefixBefore(s, n)
    decreases |s|, 0
  {
    var rest := Split(s[1..]);
    assert Split(s) == [[s[0]] + rest[0]] + rest[1..];
    assert PrefixBefore(s, n) == [s[0]] + PrefixBefore(s[1..], n);
    JoinTruncateSplit(s[1..], n);
    var t := Truncate(rest, n);
    TruncateCons(rest, n);
    TruncateCons(Split(s), n);
    assert Split(s)[1..] == rest[1..];
    assert Truncate(Split(s), n) == [[s[0]] + t[0]] + t[1..];
    JoinCons(s[0], t);
  }

  /** How many pieces the fallback title keeps. */
  const TitleWords: nat := 5

  /** The title used when title generation fails: the first five pieces of
      the prompt followed by an ellipsis. */
  function FallbackTitle(prompt: string): (r: string)
    ensures r == PrefixBefore(prompt, TitleWords) + "..."
  {
    JoinTruncateSplit(prompt, TitleWords);
    Join(Truncate(Split(prompt), TitleWords)) + "..."
  }

  /** A prompt of at most five pieces is kept whole in its fallback title. */
  lemma FallbackTitleShortPrompt(prompt: string)
    requires Spaces(prompt) < TitleWords
    ensures FallbackTitle(prompt) == prompt + "..."
  {
  }
}

=== FILE: workspace.dfy ===
/** The main workspace page, `src/app/page.tsx`: the trimmed-input check of
    the generate handler, the output normaliser, `saveToHistory` with its
    title choice and upsert, the enhance handler, and the one-shot read of
    the hand-off slot when the page mounts. Clock readings, the title
    service and the enhancement service are parameters. */
module Workspace {
  import opened Wrappers
  import opened Records
  import opened Words
  import opened HistoryList
  import opened Storage
  import opened Normalizer
  import opened Actions

  /** The characters `String.prototype.trim` removes: the ECMAScript white
      space and line terminator characters. */
  predicate IsTrimSpace(c: char) {
    || c == ' ' || c == '\t' || c == '\n' || c == '\r'
    || c == '\U{000B}' || c == '\U{000C}' || c == '\U{00A0}' || c == '\U{1680}'
    || ('\U{2000}' <= c <= '\U{200A}')
    || c == '\U{2028}' || c == '\U{2029}' || c == '\U{202F}' || c == '\U{205F}'
    || c == '\U{3000}' || c == '\U{FEFF}'
  }

  /** The first position at or after `i` that holds a character `trim`
      keeps, or `|s|` when there is none. */
  function SkipStart(s: string, i: nat): (r: nat)
    requires i <= |s|
    ensures i <= r <= |s|
    ensures forall k :: i <= k < r ==> IsTrimSpace(s[k])
    ensures r < |s| ==> !IsTrimSpace(s[r])
    decreases |s| - i
  {
    if i < |s| && IsTrimSpace(s[i]) then SkipStart(s, i + 1) else i
  }

  /** Walking back from `j`, no further than `lo`: the end of the last kept
      character, or `lo` when there is none. */
  function SkipEnd(s: string, lo: nat, j: nat): (r: nat)
    requires lo <= j <= |s|
    ensures lo <= r <= j
    ensures forall k :: r <= k < j ==> IsTrimSpace(s[k])
    ensures r > lo ==> !IsTrimSpace(s[r - 1])
    decreases j
  {
    if j > lo && IsTrimSpace(s[j - 1]) then SkipEnd(s, lo, j - 1) else j
  }

  /** `s.trim()`: the contiguous middle of `s` left after white space is
      removed from both ends. */
  function Trim(s: string): (r: string)
    ensures |r| > 0 ==> !IsTrimSpace(r[0]) && !IsTrimSpace(r[|r| - 1])
    ensures var i := SkipStart(s, 0);
      && i + |r| <= |s| && r == s[i..i + |r|]
      && (forall k :: 0 <= k < i ==> IsTrimSpace(s[k]))
      && (forall k :: i + |r| <= k < |s| ==> IsTrimSpace(s[k]))
    ensures r == "" <==> forall k :: 0 <= k < |s| ==> IsTrimSpace(s[k])
  {
    var i := SkipStart(s, 0);
    var j := SkipEnd(s, i, |s|);
    assert i < j ==> s[i..j][0] == s[i] && s[i..j][j - i - 1] == s[j - 1];
    assert i == j ==> forall k :: 0 <= k < |s| ==> IsTrimSpace(s[k]);
    s[i..j]
  }

  /** Trimming an already trimmed text changes nothing. */
  lemma TrimIdempotent(s: string)
    ensures Trim(Trim(s)) == Trim(s)
  {
  }

  /** The argument of `saveToHistory`: a record without id and timestamp,
      with an optional title. */
  datatype Draft = Draft(prompt: string, jsonOutput: string, enhancement: Option<Enhancement>, title: Option<string>)

  /** A supplied non-empty title is used as it is; otherwise the title
      service's answer (`generated`, `None` when the call throws); otherwise
      the fallback built from the prompt. */
  function ChooseTitle(draft: Draft, generated: Option<string>): (r: string)
    ensures draft.title.Some? && draft.title.value != "" ==> r == draft.title.value
    ensures (draft.title.None? || draft.title.value == "") && generated.Some? ==> r == generated.value
    ensures (draft.title.None? || draft.title.value == "") && generated.None? ==>
      r == PrefixBefore(draft.prompt, TitleWords) + "..."
  {
    if draft.title.Some? && draft.title.value != "" then draft.title.value
    else match generated
      case Some(t) => t
      case None => FallbackTitle(draft.prompt)
  }

  /** The record `saveToHistory` builds from a draft, the two clock readings
      and the title service's answer. */
  function NewRecord(draft: Draft, id: string, timestamp: string, generated: Option<string>): (r: HistoryItem)
    ensures r.prompt == draft.prompt && r.jsonOutput == draft.jsonOutput && r.enhancement == draft.enhancement
    ensures r.id == id && r.timestamp == timestamp && r.title == ChooseTitle(draft, generated)
  {
    HistoryItem(id, ChooseTitle(draft, generated), draft.prompt, draft.jsonOutput, draft.enhancement, timestamp)
  }

  /** `saveToHistory`: read the stored history, upsert the new record, write
      back at most fifty. An unreadable stored history abandons the save and
      nothing is written. */
  function SaveToHistory(store: Store, draft: Draft, id: string, timestamp: string, generated: Option<string>): (r: Store)
    ensures ReadList(store.local, HistoryKey).Failure? ==> r == store
    ensures ReadList(store.local, HistoryKey).Success? ==>
      ReadList(r.local, HistoryKey)
        == Success(Upsert(ReadList(store.local, HistoryKey).value, NewRecord(draft, id, timestamp, generated)))
    ensures r.local - {HistoryKey} == store.local - {HistoryKey}
    ensures r.session == store.session
  {
    match ReadList(store.local, HistoryKey)
    case Failure(_) => store
    case Success(history) => WriteList(store, HistoryKey, Upsert(history, NewRecord(draft, id, timestamp, generated)))
  }

  /** What the workspace shows: the prompt box, the formatted output, the
      enhancement panel and the error banner. */
  datatype Screen = Screen(prompt: string, jsonOutput: string, enhancement: Option<Enhancement>, error: Option<string>)

  /** One handler run: the new screen and store, the requests sent to the
      structuring service, and the toast shown (if any). */
  datatype Step = Step(screen: Screen, store: Store, requests: seq<string>, notice: Option<string>)

  const DefaultBiasNotice: string := "The AI detected potential bias in your prompt."

  /** `result.biasReport || '...'` when bias is detected. */
  function BiasNotice(out: ParseOutput): (r: Option<string>)
    ensures r.Some? <==> out.biasDetected
    ensures r.Some? && out.biasReport.Some? && out.biasReport.value != "" ==> r.value == out.biasReport.value
    ensures r.Some? && (out.biasReport.None? || out.biasReport.value == "") ==> r.value == DefaultBiasNotice
  {
    if !out.biasDetected then None
    else if out.biasReport.Some? && out.biasReport.value != "" then Some(out.biasReport.value)
    else Some(DefaultBiasNotice)
  }

  /** The generate handler `onGenerate`: a blank prompt is refused on the
      page; otherwise the server action runs, its text is normalised, shown
      and saved to history with a fresh record. */
  function OnGenerate<E, V>(screen: Screen, store: Store, service: string -> Result<ParseOutput, E>,
                            parse: string -> Option<V>, stringify: V -> string,
                            id: string, timestamp: string, generated: Option<string>): (r: Step)
    ensures Trim(screen.prompt) == "" ==> r == Step(screen, store, [], Some(EmptyPromptMessage))
    ensures Trim(screen.prompt) != "" ==> r.requests == [screen.prompt] && r.screen.prompt == screen.prompt
    ensures Trim(screen.prompt) != "" && service(screen.prompt).Failure? ==>
      && r.store == store
      && r.screen == Screen(screen.prompt, "", None, Some(ParseFailureMessage))
      && r.notice == Some(ParseFailureMessage)
    ensures Trim(screen.prompt) != "" && service(screen.prompt).Success? ==>
      var formatted := Normalize(service(screen.prompt).value.jsonOutput, parse, stringify);
      && r.screen == Screen(screen.prompt, formatted, None, None)
      && r.store == SaveToHistory(store, Draft(screen.prompt, formatted, None, None), id, timestamp, generated)
      && r.notice == BiasNotice(service(screen.prompt).value)
  {
    if Trim(screen.prompt) == "" then Step(screen, store, [], Some(EmptyPromptMessage))
    else
      var d := HandleParsePrompt(screen.prompt, service);
      match d.result
      case Failure(msg) => Step(Screen(screen.prompt, "", None, Some(msg)), store, d.requests, Some(msg))
      case Success(out) =>
        var formatted := Normalize(out.jsonOutput, parse, stringify);
        Step(Screen(screen.prompt, formatted, None, None),
             SaveToHistory(store, Draft(screen.prompt, formatted, None, None), id, timestamp, generated),
             d.requests, BiasNotice(out))
  }

  /** The enhance handler `onEnhance`: on success the enhancement is shown
      and saved with the current prompt and output; on failure the panel is
      cleared, the error is toasted and the store is untouched.
      `enhanced` is the enhancement service's outcome. */
  function OnEnhance(screen: Screen, store: Store, enhanced: Result<Enhancement, string>,
                     id: string, timestamp: string, generated: Option<string>): (r: Step)
    ensures r.requests == [] && r.screen.prompt == screen.prompt && r.screen.jsonOutput == screen.jsonOutput
    ensures r.screen.error == screen.error
    ensures enhanced.Failure? ==> r.store == store && r.screen.enhancement.None? && r.notice == Some(enhanced.error)
    ensures enhanced.Success? ==>
      && r.screen.enhancement == Some(enhanced.value)
      && r.notice.None?
      && r.store == SaveToHistory(store, Draft(screen.prompt, screen.jsonOutput, Some(enhanced.value), None), id, timestamp, generated)
  {
    match enhanced
    case Failure(msg) => Step(screen.(enhancement := None), store, [], Some(msg))
    case Success(e) =>
      Step(screen.(enhancement := Some(e)),
           SaveToHistory(store, Draft(screen.prompt, screen.jsonOutput, Some(e), None), id, timestamp, generated),
           [], None)
  }

  /** The mount effect that reads the hand-off slot: a record found there is
      loaded into the screen, and the slot is removed whenever it held
      anything non-empty, parseable or not. A missing or empty slot is left
      alone. */
  function ConsumeHandOff(screen: Screen, store: Store): (r: (Screen, Store))
    ensures r.1.local == store.local
    ensures r.1.session - {HandOffKey} == store.session - {HandOffKey}
    ensures HandOffKey !in store.session || store.session[HandOffKey] == Raw("") ==> r == (screen, store)
    ensures HandOffKey in store.session && store.session[HandOffKey] != Raw("") ==> HandOffKey !in r.1.session
    ensures HandOffKey in store.session && store.session[HandOffKey].Encoded? ==>
      var item := store.session[HandOffKey].value;
      r.0 == screen.(prompt := item.prompt, jsonOutput := item.jsonOutput, enhancement := item.enhancement)
    ensures HandOffKey in store.session && store.session[HandOffKey].Raw? ==> r.0 == screen
  {
    if HandOffKey !in store.session then (screen, store)
    else
      var cleared := store.(session := store.session - {HandOffKey});
      match store.session[HandOffKey]
      case Raw(text) => if text == "" then (screen, store) else (screen, cleared)
      case Encoded(item) =>
        (screen.(prompt := item.prompt, jsonOutput := item.jsonOutput, enhancement := item.enhancement), cleared)
  }
}

=== FILE: wrappers.dfy ===
/** Optional values and success/failure results, the two shapes the
    application's loosely typed values are modelled with. */
module Wrappers {

  /** A value that may be absent (`undefined` or `null` in the application). */
  datatype Option<+T> = None | Some(value: T)

  /** The outcome of an operation that either returns a value or throws. */
  datatype Result<+R, +E> = Success(value: R) | Failure(error: E)
}
